=== FILE: README.md ===
# express-routing in Dafny

This is a model of the Express "statistics" application. It has three GET routes:

- `/mean` reads a comma-separated list of numbers from the `nums` query parameter and answers `{operation: "mean", result}`.
- `/median` does the same and answers with the median.
- `/mode` does the same and answers with the mode.

Any other request falls through to a handler that raises a 404 `ExpressError`. The final error handler answers every error with `err.status || 500` and a `{error, message}` body.

The model has eight modules:

- `Wrappers` (`wrappers.dfy`) holds the `Option` and `Result` types that the other modules use for absent values and errors.
- `Helpers` (`helpers.dfy`) models `helpers.js`:
  - `CreateFrequencyCounter` is a method with a loop. It fills a map and records the order in which keys are inserted.
  - `FindMode` is a method that runs the `for...in` search over the counter's keys.
  - `ConvertAndValidateNumsArray` is a method with the early-returning loop. Its specification is the function `Validate`.
  - `FindMean` is a function.
  - `FindMedian` is a method. It sorts the caller's array in place and then reads the middle.
  - Each method is proved equal to a specification function: `Distinct`, `Mode`, `Validate` or `Median`. The lemmas then state what `helpers.js` promises about those functions.
- `App` (`app.dfy`) models `app.js` and `expressError.js`. The routes, the 404 fallback and the error handler together form one function, `Respond`, from a request to a status and a body.
- `JsNumbers` models `Number(string)`: the whitespace trimming, the `0x`/`0o`/`0b` prefixes, signs, decimals and exponents. It also models the decimal rendering of an index used in the error message.
- `JsStrings` models `String.prototype.split` with one separator character.
- `JsArrays` models two things:
  - the numeric `Array.prototype.sort`, as the in-place method `SortAscending` and its reference function `Sort`;
  - the order in which `for...in` visits an object's keys.
- `HelpersExamples` and `AppExamples` state the expectations of `helpers.test.js` and a few whole requests.

JavaScript numbers are `JsNumber = Finite(real) | NaN`. Arithmetic on them is exact.

Four behaviours of the code worth knowing:

- **Empty tokens.** `Number("")` and `Number("  ")` are `0`. So an empty or blank token such as the middle one in `nums=4,,2` is accepted as 0, not rejected (`JsNumbers.ParseBlank`, `AppExamples.MeanWithEmptyPiece`). Surrounding whitespace is also tolerated: `" 1 "` is 1.
- **Mode ties.** Ties are not broken by first occurrence in the input. They go to the first key that `for...in` visits. That visit lists array-index keys (integers from 0 to 2^32 - 2) in ascending order, then the other keys in insertion order (`Helpers.ModeIsFirstInKeyOrder`, `Helpers.ModeOfIndexValuesIsSmallestTie`, `Helpers.ModeTiePrefersIndexKey`). For example, the mode of `[-1, 2, -1, 2]` is 2 (`HelpersExamples.ModeOfTiedCounts`).
- **Invalid numbers.** An invalid number raises an `ExpressError` without a status, so the response is 500, not 400 (`App.InvalidNumberIsServerError`).
- **Empty input.** The mode and the median of an empty list are NaN; the mean is 0. The routes never reach these cases, because splitting a non-empty parameter always gives at least one token (`App.ResultIsANumber`).

## Model

| member | source | states |
|---|---|---|
| JsNumbers.ParseNumber | express-routing/helpers.js:53 | `Number(string)`; `ParseBlank`, `ParseDecimalDigits`, `ParseNatToString` and `AppExamples.WordIsNotANumber` state its results |
| JsNumbers.NatToString | express-routing/helpers.js:58 | the decimal form of the index is never empty; `NatToStringDigits` and `ParseNatToString` state that it is made of digits, has no leading zero, and reads back as the index |
| JsNumbers.ParseBlank | express-routing/helpers.js:53-56 | a token made only of whitespace (the empty token included) converts to 0, so validation accepts it |
| JsNumbers.ParseDecimalDigits | express-routing/helpers.js:53 | a token of decimal digits converts to the integer those digits denote |
| JsNumbers.ParseNatToString | express-routing/helpers.js:58 | the index written into the error message reads back as that index |
| JsNumbers.NatToStringDigits | express-routing/helpers.js:58 | the index in the message is written with decimal digits only, denotes the index, and has no leading zero (it starts with '0' only when it is "0") |
| JsStrings.Split | express-routing/app.js:26 | `split(',')` always gives at least one piece; `SplitCount`, `SplitPiecesFree`, `JoinSplit` and `SplitJoin` state what the pieces are |
| JsStrings.SplitCount | express-routing/app.js:26 | splitting on commas yields one more piece than the parameter has commas, so it is never empty |
| JsStrings.SplitPiecesFree | express-routing/app.js:26 | no piece contains a comma |
| JsStrings.JoinSplit | express-routing/app.js:26 | rejoining the pieces with commas gives the parameter back: nothing is trimmed or dropped |
| JsStrings.SplitJoin | express-routing/app.js:26 | splitting undoes the joining of comma-free pieces |
| JsArrays.Sort | express-routing/helpers.js:92 | the reference result of the numeric sort has the input's length, is ascending, and is a permutation of its input |
| JsArrays.SortedUnique | express-routing/helpers.js:92 | two ascending sequences with the same elements are equal, so the sorted result is unique |
| JsArrays.SortIsUnique | express-routing/helpers.js:92 | any ascending rearrangement of the input is the sorted result |
| JsArrays.SortAscending | express-routing/helpers.js:92 | sorting in place leaves the array ascending, a permutation of its old contents, equal to `Sort` of them |
| JsArrays.SinkIntoPlace | express-routing/helpers.js:92 | one insertion step extends the sorted prefix by one element, leaves every element after it unchanged, and keeps the array's elements |
| JsArrays.IndexKeys | express-routing/helpers.js:29 | the array-index keys are exactly those of the counter's keys that are integers from 0 to 2^32 - 2 |
| JsArrays.NamedKeys | express-routing/helpers.js:29 | the other keys are exactly the remaining keys |
| JsArrays.ForInOrder | express-routing/helpers.js:29 | `for...in` visits each key of the counter exactly once, and only those; every array-index key comes before every other key; the index keys come in ascending order; and the other keys keep the order in which they were inserted |
| JsArrays.NamedKeysKeepOrder | express-routing/helpers.js:29 | of any two keys that are not array indexes, the one visited first was inserted first |
| JsArrays.ForInOrderOfIndexKeys | express-routing/helpers.js:29 | when every key is an array index, `for...in` visits them in ascending order |
| Helpers.Distinct | express-routing/helpers.js:7-13 | the counter's keys are exactly the input's values, each once |
| Helpers.DistinctKeepsFirstOccurrenceOrder | express-routing/helpers.js:8-12 | the counter's keys are in order of first occurrence: of two keys, the first occurrence of the earlier one comes before any occurrence of the later one |
| Helpers.CreateFrequencyCounter | express-routing/helpers.js:7-13 | the counter holds a key for exactly the values of the input, the count of each is its number of occurrences, and its keys are in insertion order |
| Helpers.CountsSumToLength | express-routing/helpers.js:7-13 | the counts add up to the length of the input |
| Helpers.Scan | express-routing/helpers.js:26-35 | the search holds no key exactly when its count is 0, and a key it holds is one of the visited keys, with its own count; `ScanFindsFirstMaximum` and `ScanKeepsFirst` state which key it is |
| Helpers.Mode | express-routing/helpers.js:23-39 | the mode as a value; `ModeIsMostFrequent`, `ModeIsFirstInKeyOrder`, `ModeTiePrefersIndexKey` and `ModeOfEmpty` state what it is |
| Helpers.FindMode | express-routing/helpers.js:23-39 | the method returns `Mode` of its input |
| Helpers.MostFrequentKey | express-routing/helpers.js:26-35 | the loop over the keys ends with the key and count that the search function `Scan` describes |
| Helpers.ScanFindsFirstMaximum | express-routing/helpers.js:29-35 | the search holds a key of greatest count (count 0 and no key when there are none), and no earlier key in visiting order has that count |
| Helpers.ScanKeepsFirst | express-routing/helpers.js:31-34 | only a strictly greater count replaces the held key, so every key visited before it has a smaller count |
| Helpers.ModeIsMostFrequent | express-routing/helpers.js:23-39 | on non-empty input the mode is a number that occurs in the input, and no value occurs more often |
| Helpers.ModeIsFirstInKeyOrder | express-routing/helpers.js:29-38 | among values of greatest count, the mode is the first that `for...in` visits |
| Helpers.ScanOverSortedKeepsSmallest | express-routing/helpers.js:29-35 | over ascending keys the search keeps the smallest key of greatest count |
| Helpers.ModeTiePrefersIndexKey | express-routing/helpers.js:29-35 | of two values with the same count, one an array index and one not, the one that is not an index is never the mode |
| Helpers.ModeOfIndexValuesIsSmallestTie | express-routing/helpers.js:23-39 | when all values are integers from 0 to 2^32 - 2, ties go to the smallest value |
| Helpers.ModeOfEmpty | express-routing/helpers.js:27-38 | with no values nothing is held, and `+undefined` is NaN |
| Helpers.InvalidNumberMessage | express-routing/helpers.js:57-59 | the error text naming the token and its index; `ValidateReportsFirstInvalid` states when it is produced and `JsNumbers.ParseNatToString` that the index in it reads back |
| Helpers.Validate | express-routing/helpers.js:49-66 | a successful validation yields one number per token; `ValidateSucceeds`, `ValidateReportsFirstInvalid` and `ValidateFailsOnlyAtFirstInvalid` state its results and errors |
| Helpers.ConvertAndValidateNumsArray | express-routing/helpers.js:49-66 | the loop returns exactly `Validate` of the tokens |
| Helpers.ValidateKeepsFirstError | express-routing/helpers.js:56-60 | once a token fails, the tokens after it change nothing |
| Helpers.ValidateSucceeds | express-routing/helpers.js:52-65 | validation succeeds if and only if every token converts to a number, and then yields each token's number, in order |
| Helpers.ValidateAgrees | express-routing/helpers.js:52-65 | tokens that convert to given numbers validate to exactly those numbers |
| Helpers.ValidateReportsFirstInvalid | express-routing/helpers.js:56-60 | when token i is the first NaN, validation fails with "The value '<token>' at index <i> is not a valid number." |
| Helpers.FirstNaN | express-routing/helpers.js:52-56 | the position found is a NaN token with only numbers before it |
| Helpers.ValidateFailsOnlyAtFirstInvalid | express-routing/helpers.js:52-60 | every failure is the report of the first token that is NaN |
| Helpers.Sum | express-routing/helpers.js:79-81 | the `reduce` that adds the numbers; `SumConcat`, `SumOfPermutation` and `SumWithinBounds` state what it is |
| Helpers.FindMean | express-routing/helpers.js:74-82 | the mean of no numbers is 0; otherwise the mean taken once per number makes up their sum |
| Helpers.SumConcat | express-routing/helpers.js:79-81 | the sum of two lists joined is the sum of their sums |
| Helpers.SumOfPermutation | express-routing/helpers.js:79-81 | the sum does not depend on the order of the numbers |
| Helpers.RemoveAt | express-routing/helpers.js:79-81 | removing one element removes it from the multiset and its value from the sum |
| Helpers.MeanOfPermutation | express-routing/helpers.js:74-82 | the mean does not depend on the order of the numbers |
| Helpers.SumWithinBounds | express-routing/helpers.js:79-81 | the sum of n numbers between lo and hi lies between n * lo and n * hi |
| Helpers.MeanWithinBounds | express-routing/helpers.js:74-82 | the mean of non-empty input lies between any lower and upper bound of its numbers |
| Helpers.MiddleOf | express-routing/helpers.js:94-104 | reading the middle of a sorted list gives NaN exactly when the list is empty; `MiddleSplitsSorted` states which number it is otherwise |
| Helpers.Median | express-routing/helpers.js:90-105 | the median is NaN exactly when there are no numbers; `MedianSplitsSortedInput` and `MedianOfPermutation` state which number it is otherwise |
| Helpers.FindMedian | express-routing/helpers.js:90-105 | the caller's array ends ascending and a permutation of its old contents, and the result is `Median` of the old contents |
| Helpers.MedianOfPermutation | express-routing/helpers.js:90-105 | the median does not depend on the order of the input |
| Helpers.MedianFromSortedCopy | express-routing/helpers.js:92-103 | the median is the middle of any ascending arrangement of the input |
| Helpers.MedianOfSorted | express-routing/helpers.js:92-103 | already ascending input is read directly |
| Helpers.MedianSplitsSortedInput | express-routing/helpers.js:94-103 | for non-empty input the median is a number at least every element of the lower half and at most every element of the upper half, and for odd length one of the inputs |
| Helpers.MiddleSplitsSorted | express-routing/helpers.js:94-103 | the middle of an ascending list separates its lower and upper halves, and for odd length is the element at n/2 |
| Helpers.MedianOfEmpty | express-routing/helpers.js:98-99 | the median of no numbers is NaN, the sum of two missing elements |
| HelpersExamples.MedianOfEvenCount | express-routing/helpers.test.js:13 | the median of [1, -1, 4, 2] is 1.5 |
| HelpersExamples.MedianOfOddCount | express-routing/helpers.test.js:19 | the median of [1, -1, 4] is 1 |
| HelpersExamples.MeanOfNothing | express-routing/helpers.test.js:28 | the mean of [] is 0 |
| HelpersExamples.MeanOfFourValues | express-routing/helpers.test.js:34 | the mean of [1, -1, 4, 2] is 1.5 |
| HelpersExamples.ModeOfRepeatedValues | express-routing/helpers.test.js:43 | the mode of [1, 1, 1, 2, 2, 3] is 1 |
| HelpersExamples.ModeOfTiedCounts | express-routing/helpers.js:29-35 | the mode of [-1, 2, -1, 2] is 2: the tie goes to the array-index key, though -1 was counted first |
| App.LowerAsciiLowersCapitals | express-routing/app.js:19 | the path is compared in lower case: each ASCII capital becomes its lower-case letter and every other character stays |
| App.PathMatches | express-routing/app.js:19-84 | Express's test of a path against the routes at app.js:19, 51 and 84: equal to the route name after ASCII lower-casing, with one optional trailing slash; `LowerAsciiLowersCapitals`, `RouteOfMatchingPath` and `AppExamples.RouteOfLowerCasePath` state its effect |
| App.Compute | express-routing/app.js:35-103 | the helper each route applies: `findMean` for /mean (app.js:37), `findMedian` for /median (app.js:69), `findMode` for /mode (app.js:102); `ValidRequestIsComputed` and `ResultIsANumber` state that a valid request is answered with it and that it is a number |
| App.RouteOf | express-routing/app.js:19-108 | a request reaches a route only with GET or HEAD and a path matching that route's own name; `RouteOfMatchingPath` gives the converse |
| App.RouteOfMatchingPath | express-routing/app.js:19-108 | a GET or HEAD request whose path matches a route's name reaches that route; with `RouteOf`'s contract, a request reaches a route if and only if it is GET or HEAD and its path matches |
| App.HandleOperation | express-routing/app.js:19-108 | one route handler; `MissingNumsIsBadRequest`, `ResultIsANumber`, `ValidatedRequestIsComputed` and `InvalidNumberIsServerError` state its outcomes |
| App.ErrorHandler | express-routing/app.js:133-142 | the response carries the error and its message; its status is the error's own status when that is set and non-zero, and 500 otherwise, the default of app.js:135 |
| App.Respond | express-routing/app.js:19-142 | the whole application; `EveryRequestIsAnswered`, `ValidRequestIsComputed`, `InvalidNumberIsServerError` and `UnmatchedRouteIsNotFound` state its responses |
| App.MissingNumsIsBadRequest | express-routing/app.js:21-24 | a route rejects with 400 and the fixed message if and only if `nums` is missing or empty |
| App.ResultIsANumber | express-routing/app.js:26-38 | a route that succeeds names its operation and never answers NaN |
| App.ValidRequestIsComputed | express-routing/app.js:51-72 | when every comma-separated piece converts, the answer is 200 with the route's helper applied to one number per piece, and that result is a number |
| App.ValidatedRequestIsComputed | express-routing/app.js:26-40 | a validated list is answered with 200 and the computation |
| App.InvalidNumberIsServerError | express-routing/app.js:28-32 | when piece i is the first that is not a number, the answer is 500 with the validator's message both as the error and as the message |
| App.UnmatchedRouteIsNotFound | express-routing/app.js:117-123 | every request that reaches none of the routes is answered 404 "Not Found" |
| App.EveryRequestIsAnswered | express-routing/app.js:133-142 | every response is 200 with a computation, or 400, 404 or 500 with the error and its message; the error's own status is used when it has one, and 500 otherwise |
| AppExamples.WordIsNotANumber | express-routing/helpers.js:53-56 | "abc" converts to NaN |
| AppExamples.NegativeParses | express-routing/helpers.js:53 | a minus sign before decimal digits negates their value |
| AppExamples.MeanWithWord | express-routing/app.js:19-41 | `GET /mean?nums=1,2,abc` is answered 500 with "The value 'abc' at index 2 is not a valid number." |
| AppExamples.MedianOfFour | express-routing/app.js:51-74 | `GET /median?nums=1,-1,4,2` is answered 200 with `{operation: "median", result: 1.5}` |
| AppExamples.MeanWithEmptyPiece | express-routing/app.js:19-41 | `GET /mean?nums=4,,2` is answered 200 with mean 2: the empty piece counts as 0 |
| AppExamples.ModeWithoutNumbers | express-routing/app.js:84-89 | `GET /mode` without `nums` is answered 400 with the fixed message |
| AppExamples.UnknownRoute | express-routing/app.js:117-123 | `GET /average` is answered 404 |

## Left out

- Express itself is left out: the server, `app.listen`, the middleware chain and `res.send`/`res.json` serialisation. A response is a status and a body value. The JSON form of `err` in the body is not modelled.
- The `console.error(this.stack)` logging in the `ExpressError` constructor is not modelled. It is output only.
- Numbers are exact reals, not IEEE doubles. Rounding, overflow to `Infinity`, and `-0` are not modelled. A key's string form is taken to name its number exactly.
- JsNumbers.ParseNumber: rejects `"Infinity"`, `"+Infinity"` and `"-Infinity"`, which `Number` accepts. The reals have no infinity. With exact reals, numerals too large for a double also convert to finite values.
- `App.RouteOf` uses Express's default matching (GET and HEAD, ASCII case-insensitive, one optional trailing slash). It does not model URL decoding of the path or the query string. A `nums` given more than once, which Express parses into an array, is not modelled.
- HEAD requests get the same status as GET. Dropping the body on HEAD is not modelled.
- `Helpers.Validate` and `Helpers.ConvertAndValidateNumsArray` take the conversion as a parameter. `App` always supplies `JsNumbers.ParseNumber`, which is `Number(string)`.
- The model does not cover the JS `Error` object that `convertAndValidateNumsArray` returns. It keeps only that object's message, which is the only part the routes read.

=== FILE: app.dfy ===
/** The HTTP application: three GET routes that read the `nums` query parameter and
    answer with a mean, a median or a mode, a fallback that answers 404, and the final
    error handler that turns every error into a status and a JSON body. The whole
    request-to-response decision is one pure function, `Respond`. */
module App {
  import opened Wrappers
  import opened JsNumbers
  import opened JsStrings
  import Helpers

  /** An `ExpressError`: a message, and an HTTP status when the constructor was given one. */
  datatype ExpressError = ExpressError(message: string, status: Option<int>)

  /** The three statistics the routes compute. */
  datatype Operation = Mean | Median | Mode

  function OperationName(op: Operation): string {
    match op
    case Mean => "mean"
    case Median => "median"
    case Mode => "mode"
  }

  /** What a handler sees of a request: its method, its path without the query string,
      and the `nums` query parameter when present. */
  datatype Request = Request(verb: string, path: string, nums: Option<string>)

  /** The object a successful route sends: `{operation, result}`. */
  datatype Computation = Computation(operation: string, result: JsNumber)

  /** A response body: the computation, or the error handler's `{error, message}`. */
  datatype Body = Computed(computation: Computation) | Failed(error: ExpressError, message: string)

  datatype Response = Response(status: int, body: Body)

  const MissingNumsMessage: string :=
    "Please provide a comma-separated list of numbers via the \"nums\" query parameter."

  const NotFound: ExpressError := ExpressError("Not Found", Some(404))

  /** Lower-cases the ASCII capitals and keeps every other character. */
  function LowerAscii(s: string): string {
    if s == [] then []
    else
      var c := if 'A' <= s[0] <= 'Z' then (s[0] as int + 32) as char else s[0];
      [c] + LowerAscii(s[1..])
  }

  /** `LowerAscii` maps each character on its own: a capital A-Z to its lower-case
      letter, anything else to itself. */
  lemma {:induction false} LowerAsciiLowersCapitals(s: string)
    ensures |LowerAscii(s)| == |s|
    ensures forall i :: 0 <= i < |s| ==>
      LowerAscii(s)[i] == (if 'A' <= s[i] <= 'Z' then (s[i] as int + 32) as char else s[i])
  {
    if s != [] {
      LowerAsciiLowersCapitals(s[1..]);
      assert forall i :: 1 <= i < |s| ==> LowerAscii(s)[i] == LowerAscii(s[1..])[i - 1];
    }
  }

  /** Express's default route matching: case-insensitive, with an optional trailing slash. */
  predicate PathMatches(path: string, route: string) {
    var p := LowerAscii(path);
    p == route || p == route + "/"
  }

  /** The route a request reaches; GET routes also answer HEAD requests. */
  function RouteOf(verb: string, path: string): (r: Option<Operation>)
    ensures r.Some? ==> (verb == "GET" || verb == "HEAD") && PathMatches(path, "/" + OperationName(r.value))
  {
    if verb != "GET" && verb != "HEAD" then None
    else if PathMatches(path, "/mean") then Some(Mean)
    else if PathMatches(path, "/median") then Some(Median)
    else if PathMatches(path, "/mode") then Some(Mode)
    else None
  }

  /** A GET or HEAD request whose path matches a route's name reaches that route; with
      `RouteOf`'s own contract, a request reaches a route if and only if this holds. */
  lemma RouteOfMatchingPath(verb: string, path: string, op: Operation)
    requires verb == "GET" || verb == "HEAD"
    requires PathMatches(path, "/" + OperationName(op))
    ensures RouteOf(verb, path) == Some(op)
  {
    var p := LowerAscii(path);
    match op
    case Mean =>
    case Median =>
      assert p == "/median" || p == "/median/";
      assert |p| >= 7;
    case Mode =>
      assert p[2] == 'o';
      assert |p| <= 6;
  }

  /** The helper each route applies to the validated numbers. */
  function Compute(op: Operation, nums: seq<real>): JsNumber {
    match op
    case Mean => Finite(Helpers.FindMean(nums))
    case Median => Helpers.Median(nums)
    case Mode => Helpers.Mode(nums)
  }

  /** One route handler: reject a missing or empty `nums`, split it on commas, validate
      the pieces, then compute. */
  function HandleOperation(op: Operation, nums: Option<string>): Result<Computation, ExpressError> {
    if nums.None? || nums.value == "" then Err(ExpressError(MissingNumsMessage, Some(400)))
    else
      match Helpers.Validate(Split(nums.value, ','), ParseNumber)
      case Err(message) => Err(ExpressError(message, None))
      case Ok(numbers) => Ok(Computation(OperationName(op), Compute(op, numbers)))
  }

  /** The final error handler: the error's status, or 500 when it has none (`status || 500`). */
  function ErrorHandler(err: ExpressError): (r: Response)
    ensures r.body == Failed(err, err.message)
    ensures r.status != 0
    ensures err.status.Some? && err.status.value != 0 ==> r.status == err.status.value
    ensures !(err.status.Some? && err.status.value != 0) ==> r.status == 500
  {
    var status := if err.status.Some? && err.status.value != 0 then err.status.value else 500;
    Response(status, Failed(err, err.message))
  }

  /** The application: route, handle, and send either the computation or the error. */
  function Respond(req: Request): Response {
    match RouteOf(req.verb, req.path)
    case None => ErrorHandler(NotFound)
    case Some(op) =>
      match HandleOperation(op, req.nums)
      case Ok(computation) => Response(200, Computed(computation))
      case Err(err) => ErrorHandler(err)
  }

  /** Every route rejects exactly a missing or empty `nums`, with status 400 and the
      fixed message, before computing anything. */
  lemma MissingNumsIsBadRequest(op: Operation, nums: Option<string>)
    ensures HandleOperation(op, nums) == Err(ExpressError(MissingNumsMessage, Some(400)))
        <==> nums.None? || nums == Some("")
    ensures nums.None? || nums == Some("") ==>
      ErrorHandler(HandleOperation(op, nums).error)
        == Response(400, Failed(ExpressError(MissingNumsMessage, Some(400)), MissingNumsMessage))
  {
  }

  /** A successful route never answers NaN: the validated list is never empty. */
  lemma ResultIsANumber(op: Operation, nums: Option<string>)
    requires HandleOperation(op, nums).Ok?
    ensures HandleOperation(op, nums).value.operation == OperationName(op)
    ensures HandleOperation(op, nums).value.result.Finite?
  {
    var tokens := Split(nums.value, ',');
    Helpers.ValidateSucceeds(tokens, ParseNumber);
    var numbers := Helpers.Validate(tokens, ParseNumber).value;
    assert numbers != [];
    match op
    case Mean =>
    case Median => Helpers.MedianSplitsSortedInput(numbers);
    case Mode => Helpers.ModeIsMostFrequent(numbers);
  }

  /** A request whose numbers all parse is answered with status 200 and the matching
      helper applied to them, one number per comma-separated piece. */
  lemma ValidRequestIsComputed(req: Request, op: Operation, s: string, numbers: seq<real>)
    requires RouteOf(req.verb, req.path) == Some(op)
    requires req.nums == Some(s) && s != ""
    requires |numbers| == |Split(s, ',')|
    requires forall i :: 0 <= i < |numbers| ==> ParseNumber(Split(s, ',')[i]) == Finite(numbers[i])
    ensures Respond(req) == Response(200, Computed(Computation(OperationName(op), Compute(op, numbers))))
    ensures Compute(op, numbers).Finite?
    ensures |numbers| == multiset(s)[','] + 1
  {
    Helpers.ValidateAgrees(Split(s, ','), ParseNumber, numbers);
    ValidatedRequestIsComputed(req, op, s, numbers);
    SplitCount(s, ',');
  }

  lemma ValidatedRequestIsComputed(req: Request, op: Operation, s: string, numbers: seq<real>)
    requires RouteOf(req.verb, req.path) == Some(op)
    requires req.nums == Some(s) && s != ""
    requires Helpers.Validate(Split(s, ','), ParseNumber) == Ok(numbers)
    ensures Respond(req) == Response(200, Computed(Computation(OperationName(op), Compute(op, numbers))))
    ensures Compute(op, numbers).Finite?
  {
    assert HandleOperation(op, req.nums) == Ok(Computation(OperationName(op), Compute(op, numbers)));
    ResultIsANumber(op, req.nums);
  }

  /** A request whose piece `i` is the first that is not a number is answered with
      status 500 and the validator's message, naming the piece and its index. */
  lemma InvalidNumberIsServerError(req: Request, op: Operation, s: string, i: nat)
    requires RouteOf(req.verb, req.path) == Some(op)
    requires req.nums == Some(s) && s != ""
    requires Helpers.FirstInvalidAt(Split(s, ','), ParseNumber, i)
    ensures var message := Helpers.InvalidNumberMessage(Split(s, ',')[i], i);
      Respond(req) == Response(500, Failed(ExpressError(message, None), message))
  {
    Helpers.ValidateReportsFirstInvalid(Split(s, ','), ParseNumber, i);
  }

  /** Any request that reaches none of the three routes is answered 404 "Not Found". */
  lemma UnmatchedRouteIsNotFound(req: Request)
    requires RouteOf(req.verb, req.path).None?
    ensures Respond(req) == Response(404, Failed(ExpressError("Not Found", Some(404)), "Not Found"))
  {
  }

  /** Every request is answered: 200 with a computation, or 400, 404 or 500 with the
      error and its message; an error's own status is used whenever it has one. */
  lemma EveryRequestIsAnswered(req: Request)
    ensures Respond(req).status in {200, 400, 404, 500}
    ensures Respond(req).status == 200 <==> Respond(req).body.Computed?
    ensures Respond(req).body.Failed? ==>
      && Respond(req).body.message == Respond(req).body.error.message
      && (Respond(req).body.error.status.Some? ==> Respond(req).status == Respond(req).body.error.status.value)
      && (Respond(req).body.error.status.None? ==> Respond(req).status == 500)
  {
  }
}

=== FILE: app_examples.dfy ===
/** Whole requests and the responses the application gives them. */
module AppExamples {
  import opened Wrappers
  import opened JsNumbers
  import opened JsStrings
  import Helpers
  import HelpersExamples
  import opened App

  lemma DigitParses(t: string, c: char, value: real)
    requires t == [c] && '0' <= c <= '9' && value == (c as int - '0' as int) as real
    ensures ParseNumber(t) == Finite(value)
  {
    assert t[..0] == [];
    assert DigitsValue(t, 10) == DigitValue(c);
    ParseDecimalDigits(t);
  }

  lemma WordIsNotANumber(t: string)
    requires t == "abc"
    ensures ParseNumber(t) == NaN
  {
    assert TrimStart(t) == t;
    assert TrimEnd(t) == t;
    assert !HasPrefix(t, 'x', 'X') && !HasPrefix(t, 'o', 'O') && !HasPrefix(t, 'b', 'B');
    assert IndexOfAny(t, {'e', 'E'}) == 3;
    assert t[..3] == t;
    assert IndexOfAny(t, {'.'}) == 3;
    assert !AllDigits(t, 10);
  }

  lemma NegativeOneParses(t: string)
    requires t == "-1"
    ensures ParseNumber(t) == Finite(-1.0)
  {
    var digits := t[1..];
    assert digits == [digits[0]] && digits[0] == '1';
    assert digits[..0] == [];
    assert DigitsValue(digits, 10) == 1;
    ParseUnsignedDigits(digits);
    NegativeParses(t, 1.0);
  }

  /** A minus sign followed by decimal digits. */
  lemma NegativeParses(t: string, value: real)
    requires |t| >= 2 && t[0] == '-' && AllDigits(t[1..], 10)
    requires ParseUnsignedDecimal(t[1..]) == Finite(value)
    ensures ParseNumber(t) == Finite(-value)
  {
    assert t[1..][|t| - 2] == t[|t| - 1];
    DecimalDigitChar(t[|t| - 1]);
    NoSpaceAtEnds(t);
    assert !HasPrefix(t, 'x', 'X') && !HasPrefix(t, 'o', 'O') && !HasPrefix(t, 'b', 'B');
  }

  lemma NoSpaceAtEnds(t: string)
    requires t != [] && !IsStrWhiteSpace(t[0]) && !IsStrWhiteSpace(t[|t| - 1])
    ensures TrimEnd(TrimStart(t)) == t
  {
    assert TrimStart(t) == t;
  }

  lemma LowerAsciiKeepsLowerCase(s: string)
    requires forall i :: 0 <= i < |s| ==> !('A' <= s[i] <= 'Z')
    ensures LowerAscii(s) == s
  {
    LowerAsciiLowersCapitals(s);
  }

  /** A parameter written as comma-free pieces joined by commas splits into those pieces. */
  lemma SplitsInto(s: string, parts: seq<string>)
    requires |parts| >= 1 && forall i :: 0 <= i < |parts| ==> ',' !in parts[i]
    requires Join(parts, ',') == s
    ensures Split(s, ',') == parts
  {
    SplitJoin(parts, ',');
  }

  /** The routes, written in lower case, reach their operations. */
  lemma RouteOfLowerCasePath(verb: string, path: string)
    requires verb == "GET"
    requires path in {"/mean", "/median", "/mode", "/average"}
    ensures path == "/mean" ==> RouteOf(verb, path) == Some(Mean)
    ensures path == "/median" ==> RouteOf(verb, path) == Some(Median)
    ensures path == "/mode" ==> RouteOf(verb, path) == Some(Mode)
    ensures path == "/average" ==> RouteOf(verb, path) == None
  {
    LowerAsciiKeepsLowerCase(path);
  }

  /** For any conversion: when the first two of three tokens convert to numbers and the
      third to NaN, the third is the first invalid token. */
  lemma ThirdOfThreeIsFirstInvalid(tokens: seq<string>, toNumber: string -> JsNumber)
    requires |tokens| == 3
    requires toNumber(tokens[0]).Finite? && toNumber(tokens[1]).Finite? && toNumber(tokens[2]).NaN?
    ensures Helpers.FirstInvalidAt(tokens, toNumber, 2)
  {
  }

  /** Four conversions, one per token, collected into the form `ValidRequestIsComputed` takes. */
  lemma EachOfFourConverts(tokens: seq<string>, toNumber: string -> JsNumber, numbers: seq<real>)
    requires |tokens| == 4 && |numbers| == 4
    requires toNumber(tokens[0]) == Finite(numbers[0]) && toNumber(tokens[1]) == Finite(numbers[1])
    requires toNumber(tokens[2]) == Finite(numbers[2]) && toNumber(tokens[3]) == Finite(numbers[3])
    ensures forall i :: 0 <= i < |numbers| ==> toNumber(tokens[i]) == Finite(numbers[i])
  {
  }

  lemma ThirdValueIsFirstInvalid(tokens: seq<string>)
    requires tokens == ["1", "2", "abc"]
    ensures Helpers.FirstInvalidAt(tokens, ParseNumber, 2)
  {
    DigitParses(tokens[0], '1', 1.0);
    DigitParses(tokens[1], '2', 2.0);
    WordIsNotANumber(tokens[2]);
    var toNumber := ParseNumber;
    ThirdOfThreeIsFirstInvalid(tokens, toNumber);
  }

  lemma FourValuesParse(tokens: seq<string>, numbers: seq<real>)
    requires tokens == ["1", "-1", "4", "2"] && numbers == [1.0, -1.0, 4.0, 2.0]
    ensures forall i :: 0 <= i < |numbers| ==> ParseNumber(tokens[i]) == Finite(numbers[i])
  {
    DigitParses(tokens[0], '1', 1.0);
    NegativeOneParses(tokens[1]);
    DigitParses(tokens[2], '4', 4.0);
    DigitParses(tokens[3], '2', 2.0);
    var toNumber := ParseNumber;
    EachOfFourConverts(tokens, toNumber, numbers);
  }

  /** `GET /mean?nums=1,2,abc`: the third value is rejected, with status 500. */
  lemma MeanWithWord(req: Request)
    requires req == Request("GET", "/mean", Some("1,2,abc"))
    ensures Respond(req) == Response(500, Failed(
      ExpressError("The value 'abc' at index 2 is not a valid number.", None),
      "The value 'abc' at index 2 is not a valid number."))
  {
    RouteOfLowerCasePath(req.verb, req.path);
    var s := req.nums.value;
    SplitsInto(s, ["1", "2", "abc"]);
    ThirdValueIsFirstInvalid(Split(s, ','));
    InvalidNumberIsServerError(req, Mean, s, 2);
    MessageForWord(Split(s, ',')[2]);
  }

  lemma MessageForWord(token: string)
    requires token == "abc"
    ensures Helpers.InvalidNumberMessage(token, 2) == "The value 'abc' at index 2 is not a valid number."
  {
    assert NatToString(2) == "2";
  }

  /** `GET /median?nums=1,-1,4,2`: the average of the two middle values. */
  lemma MedianOfFour(req: Request)
    requires req == Request("GET", "/median", Some("1,-1,4,2"))
    ensures Respond(req) == Response(200, Computed(Computation("median", Finite(1.5))))
  {
    RouteOfLowerCasePath(req.verb, req.path);
    var s := req.nums.value;
    SplitsInto(s, ["1", "-1", "4", "2"]);
    var numbers := [1.0, -1.0, 4.0, 2.0];
    FourValuesParse(Split(s, ','), numbers);
    ValidRequestIsComputed(req, Median, s, numbers);
    HelpersExamples.MedianOfEvenCount(numbers);
  }

  /** Three conversions, one per token, collected into the form `ValidRequestIsComputed` takes. */
  lemma EachOfThreeConverts(tokens: seq<string>, toNumber: string -> JsNumber, numbers: seq<real>)
    requires |tokens| == 3 && |numbers| == 3
    requires toNumber(tokens[0]) == Finite(numbers[0]) && toNumber(tokens[1]) == Finite(numbers[1])
    requires toNumber(tokens[2]) == Finite(numbers[2])
    ensures forall i :: 0 <= i < |numbers| ==> toNumber(tokens[i]) == Finite(numbers[i])
  {
  }

  lemma ValuesWithEmptyPieceParse(tokens: seq<string>, numbers: seq<real>)
    requires tokens == ["4", "", "2"] && numbers == [4.0, 0.0, 2.0]
    ensures forall i :: 0 <= i < |numbers| ==> ParseNumber(tokens[i]) == Finite(numbers[i])
  {
    DigitParses(tokens[0], '4', 4.0);
    ParseBlank(tokens[1]);
    DigitParses(tokens[2], '2', 2.0);
    var toNumber := ParseNumber;
    EachOfThreeConverts(tokens, toNumber, numbers);
  }

  lemma MeanOfThreeValues(nums: seq<real>)
    requires |nums| == 3 && nums[0] == 4.0 && nums[1] == 0.0 && nums[2] == 2.0
    ensures Compute(Mean, nums) == Finite(2.0)
  {
    assert nums[..2][..1][..0] == [];
    assert Helpers.Sum(nums[..2][..1]) == 4.0;
    assert Helpers.Sum(nums[..2]) == 4.0;
    assert Helpers.Sum(nums) == 6.0;
  }

  /** `GET /mean?nums=4,,2`: the empty piece converts to 0 and is averaged in. */
  lemma MeanWithEmptyPiece(req: Request)
    requires req == Request("GET", "/mean", Some("4,,2"))
    ensures Respond(req) == Response(200, Computed(Computation("mean", Finite(2.0))))
  {
    RouteOfLowerCasePath(req.verb, req.path);
    var s := req.nums.value;
    SplitsInto(s, ["4", "", "2"]);
    var numbers := [4.0, 0.0, 2.0];
    ValuesWithEmptyPieceParse(Split(s, ','), numbers);
    ValidRequestIsComputed(req, Mean, s, numbers);
    MeanOfThreeValues(numbers);
  }

  /** `GET /mode` without numbers: status 400. */
  lemma ModeWithoutNumbers(req: Request)
    requires req == Request("GET", "/mode", None)
    ensures Respond(req) == Response(400, Failed(ExpressError(MissingNumsMessage, Some(400)), MissingNumsMessage))
  {
    RouteOfLowerCasePath(req.verb, req.path);
  }

  /** `GET /average`: no such route, status 404. */
  lemma UnknownRoute(req: Request)
    requires req == Request("GET", "/average", Some("1,2"))
    ensures Respond(req).status == 404
  {
    RouteOfLowerCasePath(req.verb, req.path);
    UnmatchedRouteIsNotFound(req);
  }
}

=== FILE: helpers.dfy ===
/** The computations behind the three routes: the frequency counter and the mode, the
    conversion and validation of the query tokens, the mean and the median. */
module Helpers {
  import opened Wrappers
  import opened JsNumbers
  import opened JsArrays

  // ---------------------------------------------------------------------------
  // createFrequencyCounter

  /** A plain object used as a counter: its keys in insertion order, and the count
      held under each key. */
  datatype FrequencyCounter = FrequencyCounter(keys: seq<real>, counts: map<real, nat>)

  /** The distinct values of `s`, in the order of their first occurrence. */
  function Distinct(s: seq<real>): (d: seq<real>)
    ensures forall x :: x in d <==> x in s
    ensures forall i, j :: 0 <= i < j < |d| ==> d[i] != d[j]
  {
    if s == [] then []
    else
      var p := Distinct(s[..|s| - 1]);
      var x := s[|s| - 1];
      assert s == s[..|s| - 1] + [x];
      if x in p then p else p + [x]
  }

  /** The first occurrence of `x` in `s` comes before any occurrence of `y`. */
  predicate FirstBefore(x: real, y: real, s: seq<real>) {
    exists k :: 0 <= k < |s| && s[k] == x && y !in s[..k + 1]
  }

  /** `Distinct` lists the values by first occurrence: of two of its values, the
      earlier one occurs in `s` before the later one first does. */
  lemma {:induction false} DistinctKeepsFirstOccurrenceOrder(s: seq<real>)
    ensures forall i, j :: 0 <= i < j < |Distinct(s)| ==> FirstBefore(Distinct(s)[i], Distinct(s)[j], s)
  {
    if s != [] {
      var prefix, x := s[..|s| - 1], s[|s| - 1];
      DistinctKeepsFirstOccurrenceOrder(prefix);
      var d, p := Distinct(s), Distinct(prefix);
      forall i, j | 0 <= i < j < |d| ensures FirstBefore(d[i], d[j], s) {
        if j < |p| {
          assert d[i] == p[i] && d[j] == p[j];
          assert FirstBefore(p[i], p[j], prefix);
          var k :| 0 <= k < |prefix| && prefix[k] == p[i] && p[j] !in prefix[..k + 1];
          assert s[..k + 1] == prefix[..k + 1];
        } else {
          assert d == p + [x] && d[j] == x && x !in prefix;
          assert d[i] == p[i] && p[i] in prefix;
          var k :| 0 <= k < |prefix| && prefix[k] == d[i];
          assert s[..k + 1] == prefix[..k + 1];
          assert forall y :: y in prefix[..k + 1] ==> y in prefix;
        }
      }
    }
  }

  /** Counts every element of `arr` under its own key, adding each new key at the end. */
  method CreateFrequencyCounter(arr: seq<real>) returns (fc: FrequencyCounter)
    ensures fc.keys == Distinct(arr)
    ensures forall x :: x in fc.counts <==> x in arr
    ensures forall x :: x in fc.counts ==> fc.counts[x] == multiset(arr)[x]
  {
    var keys: seq<real> := [];
    var counts: map<real, nat> := map[];
    for i := 0 to |arr|
      invariant keys == Distinct(arr[..i])
      invariant forall x :: x in counts <==> x in arr[..i]
      invariant forall x :: x in counts ==> counts[x] == multiset(arr[..i])[x]
    {
      var next := arr[i];
      assert arr[..i + 1] == arr[..i] + [next];
      DistinctStep(arr[..i], next);
      var previous := if next in counts then counts[next] else 0;
      if next !in counts {
        keys := keys + [next];
      }
      counts := counts[next := previous + 1];
    }
    assert arr[..|arr|] == arr;
    fc := FrequencyCounter(keys, counts);
  }

  /** `Distinct` grows by a value exactly when that value is new. */
  lemma DistinctStep(prefix: seq<real>, next: real)
    ensures Distinct(prefix + [next])
      == if next in prefix then Distinct(prefix) else Distinct(prefix) + [next]
  {
    var s := prefix + [next];
    assert s[..|s| - 1] == prefix;
  }

  /** The sum of the counts of `keys`. */
  function TotalCount(keys: seq<real>, counts: multiset<real>): nat {
    if keys == [] then 0 else TotalCount(keys[..|keys| - 1], counts) + counts[keys[|keys| - 1]]
  }

  /** One more occurrence of `x` adds one to the total exactly when `x` is a key. */
  lemma {:induction false} TotalCountAddOne(keys: seq<real>, counts: multiset<real>, x: real)
    requires forall i, j :: 0 <= i < j < |keys| ==> keys[i] != keys[j]
    ensures TotalCount(keys, counts + multiset{x})
         == TotalCount(keys, counts) + (if x in keys then 1 else 0)
  {
    if keys != [] {
      var p := keys[..|keys| - 1];
      TotalCountAddOne(p, counts, x);
      assert keys == p + [keys[|keys| - 1]];
      assert x in keys <==> x in p || x == keys[|keys| - 1];
      assert x == keys[|keys| - 1] ==> x !in p;
    }
  }

  /** The counts of the distinct values add up to the length of the input. */
  lemma {:induction false} CountsSumToLength(arr: seq<real>)
    ensures TotalCount(Distinct(arr), multiset(arr)) == |arr|
  {
    if arr != [] {
      var p, x := arr[..|arr| - 1], arr[|arr| - 1];
      assert arr == p + [x];
      CountsSumToLength(p);
      TotalCountAddOne(Distinct(p), multiset(p), x);
      if x !in p {
        assert multiset(p)[x] == 0;
        assert Distinct(arr) == Distinct(p) + [x];
        assert (Distinct(p) + [x])[..|Distinct(p)|] == Distinct(p);
      }
    }
  }

  // ---------------------------------------------------------------------------
  // findMode

  /** The state of the search loop: the key held so far (none at first) and its count. */
  datatype Leader = Leader(key: Option<real>, count: nat)

  /** The search over `order`: a key replaces the held one only with a strictly greater count. */
  function Scan(order: seq<real>, counts: multiset<real>): (leader: Leader)
    ensures leader.key.None? <==> leader.count == 0
    ensures leader.key.Some? ==> leader.key.value in order && counts[leader.key.value] == leader.count
  {
    if order == [] then Leader(None, 0)
    else
      var prev := Scan(order[..|order| - 1], counts);
      var key := order[|order| - 1];
      if counts[key] > prev.count then Leader(Some(key), counts[key]) else prev
  }

  /** `findMode` as a value: the key the search holds at the end, or NaN (`+undefined`)
      when there is none. */
  function Mode(arr: seq<real>): JsNumber {
    match Scan(ForInOrder(Distinct(arr)), multiset(arr)).key
    case None => NaN
    case Some(k) => Finite(k)
  }

  /** Computes the mode: counts the values, then visits the counter's keys in
      `for...in` order, keeping the first key of greatest count. */
  method FindMode(arr: seq<real>) returns (r: JsNumber)
    ensures r == Mode(arr)
  {
    var freqCounter := CreateFrequencyCounter(arr);
    var leader := MostFrequentKey(ForInOrder(freqCounter.keys), freqCounter.counts, multiset(arr));
    r := match leader.key
      case None => NaN
      case Some(k) => Finite(k);
  }

  /** The loop of `findMode` over the keys in `order`, reading each key's count. */
  method MostFrequentKey(order: seq<real>, counts: map<real, nat>, ghost occurrences: multiset<real>)
    returns (leader: Leader)
    requires forall k :: k in order ==> k in counts && counts[k] == occurrences[k]
    ensures leader == Scan(order, occurrences)
  {
    var count := 0;
    var mostFrequent: Option<real> := None;
    for i := 0 to |order|
      invariant Leader(mostFrequent, count) == Scan(order[..i], occurrences)
    {
      var key := order[i];
      assert order[..i + 1] == order[..i] + [key];
      if counts[key] > count {
        mostFrequent := Some(key);
        count := counts[key];
      }
    }
    assert order[..|order|] == order;
    leader := Leader(mostFrequent, count);
  }

  /** The search ends holding a key of greatest count, the first such key in `order`. */
  lemma ScanFindsFirstMaximum(order: seq<real>, counts: multiset<real>)
    ensures Scan(order, counts).key.None? ==> Scan(order, counts).count == 0
    ensures Scan(order, counts).key.Some? ==>
      Scan(order, counts).key.value in order
      && counts[Scan(order, counts).key.value] == Scan(order, counts).count
    ensures forall j :: 0 <= j < |order| ==> counts[order[j]] <= Scan(order, counts).count
    ensures Scan(order, counts).key.Some? ==>
      forall j :: 0 <= j < |order| && counts[order[j]] == Scan(order, counts).count ==>
        Scan(order, counts).key.value in order[..j + 1]
  {
    ScanKeepsMaximum(order, counts);
    ScanKeepsFirst(order, counts);
    var leader := Scan(order, counts);
    if leader.key.Some? {
      var i :| 0 <= i < |order| && order[i] == leader.key.value
        && forall j :: 0 <= j < i ==> counts[order[j]] < leader.count;
      forall j | 0 <= j < |order| && counts[order[j]] == leader.count
        ensures leader.key.value in order[..j + 1]
      {
        assert i <= j;
        assert order[..j + 1][i] == order[i];
      }
    }
  }

  lemma {:induction false} ScanKeepsMaximum(order: seq<real>, counts: multiset<real>)
    ensures Scan(order, counts).key.None? ==> Scan(order, counts).count == 0
    ensures Scan(order, counts).key.Some? ==>
      Scan(order, counts).key.value in order
      && counts[Scan(order, counts).key.value] == Scan(order, counts).count
    ensures forall j :: 0 <= j < |order| ==> counts[order[j]] <= Scan(order, counts).count
  {
    if order != [] {
      var n := |order| - 1;
      var p, key := order[..n], order[n];
      ScanKeepsMaximum(p, counts);
      var prev := Scan(p, counts);
      assert forall j :: 0 <= j < n ==> order[j] == p[j];
      if counts[key] > prev.count {
        assert Scan(order, counts) == Leader(Some(key), counts[key]);
        assert order[n] == key;
      } else {
        assert Scan(order, counts) == prev;
        if prev.key.Some? {
          var i :| 0 <= i < n && p[i] == prev.key.value;
          assert order[i] == prev.key.value;
        }
      }
    }
  }

  /** The held key sits at a position before which every key has a smaller count. */
  lemma {:induction false} ScanKeepsFirst(order: seq<real>, counts: multiset<real>)
    ensures Scan(order, counts).key.Some? ==>
      exists i :: 0 <= i < |order| && order[i] == Scan(order, counts).key.value
        && forall j :: 0 <= j < i ==> counts[order[j]] < Scan(order, counts).count
  {
    if order != [] {
      var n := |order| - 1;
      var p, key := order[..n], order[n];
      ScanKeepsFirst(p, counts);
      ScanKeepsMaximum(p, counts);
      var prev := Scan(p, counts);
      assert forall j :: 0 <= j < n ==> order[j] == p[j];
      if counts[key] > prev.count {
        assert forall j :: 0 <= j < n ==> counts[order[j]] < counts[key];
        assert order[n] == key;
      } else if prev.key.Some? {
        var i :| 0 <= i < |p| && p[i] == prev.key.value
          && forall j :: 0 <= j < i ==> counts[p[j]] < prev.count;
        assert order[i] == prev.key.value;
      }
    }
  }

  /** On non-empty input the mode is an element of the input, and no element occurs
      more often. */
  lemma ModeIsMostFrequent(arr: seq<real>)
    requires arr != []
    ensures Mode(arr).Finite?
    ensures Mode(arr).val in arr
    ensures forall x :: x in arr ==> multiset(arr)[x] <= multiset(arr)[Mode(arr).val]
  {
    var order := ForInOrder(Distinct(arr));
    ScanFindsFirstMaximum(order, multiset(arr));
    assert arr[0] in order;
    forall x | x in arr
      ensures multiset(arr)[x] <= Scan(order, multiset(arr)).count
    {
      var j :| 0 <= j < |order| && order[j] == x;
    }
  }

  /** Among values of equal greatest count, the mode is the first that `for...in` visits. */
  lemma ModeIsFirstInKeyOrder(arr: seq<real>)
    requires arr != []
    ensures Mode(arr).Finite?
    ensures var order := ForInOrder(Distinct(arr));
      forall j :: 0 <= j < |order| && multiset(arr)[order[j]] == multiset(arr)[Mode(arr).val] ==>
        Mode(arr).val in order[..j + 1]
  {
    ModeIsMostFrequent(arr);
    ScanFindsFirstMaximum(ForInOrder(Distinct(arr)), multiset(arr));
  }

  /** Of two equally frequent values, one an array index and one not, the one that is
      not an index is never the mode: `for...in` visits every index key first. */
  lemma ModeTiePrefersIndexKey(arr: seq<real>, x: real, y: real)
    requires x in arr && y in arr && multiset(arr)[x] == multiset(arr)[y]
    requires IsArrayIndex(y) && !IsArrayIndex(x)
    ensures Mode(arr) != Finite(x)
  {
    var order := ForInOrder(Distinct(arr));
    var c := multiset(arr);
    ScanFindsFirstMaximum(order, c);
    assert y in order;
    var j :| 0 <= j < |order| && order[j] == y;
    NoOtherKeyBefore(order, x, j);
    assert Scan(order, c).key != Some(x);
  }

  /** In an ascending sequence, a value found up to position `j` is at most the element at `j`. */
  lemma SortedPrefixBound(order: seq<real>, j: nat, m: real)
    requires SortedAsc(order) && j < |order| && m in order[..j + 1]
    ensures m <= order[j]
  {
    var prefix := order[..j + 1];
    var k :| 0 <= k < |prefix| && prefix[k] == m;
    assert order[k] == m;
  }

  /** Over keys in ascending order, the search keeps the smallest key of greatest count. */
  lemma ScanOverSortedKeepsSmallest(order: seq<real>, counts: multiset<real>)
    requires SortedAsc(order) && Scan(order, counts).key.Some?
    ensures forall j :: 0 <= j < |order| && counts[order[j]] == Scan(order, counts).count ==>
      Scan(order, counts).key.value <= order[j]
  {
    ScanFindsFirstMaximum(order, counts);
    var leader := Scan(order, counts);
    forall j | 0 <= j < |order| && counts[order[j]] == leader.count
      ensures leader.key.value <= order[j]
    {
      SortedPrefixBound(order, j, leader.key.value);
    }
  }

  /** When every value is an array index key (an integer from 0 to 2^32 - 2), the keys
      are visited in ascending order, so ties go to the smallest value. */
  lemma ModeOfIndexValuesIsSmallestTie(arr: seq<real>)
    requires arr != []
    requires forall i :: 0 <= i < |arr| ==> IsArrayIndex(arr[i])
    ensures Mode(arr).Finite?
    ensures forall x :: x in arr && multiset(arr)[x] == multiset(arr)[Mode(arr).val] ==>
      Mode(arr).val <= x
  {
    var order := ForInOrder(Distinct(arr));
    ForInOrderOfIndexKeys(Distinct(arr));
    ModeIsMostFrequent(arr);
    ScanFindsFirstMaximum(order, multiset(arr));
    ScanOverSortedKeepsSmallest(order, multiset(arr));
    forall x | x in arr && multiset(arr)[x] == multiset(arr)[Mode(arr).val]
      ensures Mode(arr).val <= x
    {
      assert x in order;
      var j :| 0 <= j < |order| && order[j] == x;
    }
  }

  lemma ModeOfEmpty()
    ensures Mode([]) == NaN
  {
  }

  // ---------------------------------------------------------------------------
  // convertAndValidateNumsArray

  /** The message of the error returned for the token `token` at position `index`. */
  function InvalidNumberMessage(token: string, index: nat): string {
    "The value '" + token + "' at index " + NatToString(index) + " is not a valid number."
  }

  /** `convertAndValidateNumsArray` as a value, one token at a time from the left;
      `toNumber` is the conversion `Number(string)`. */
  function Validate(tokens: seq<string>, toNumber: string -> JsNumber): (r: Result<seq<real>, string>)
    ensures r.Ok? ==> |r.value| == |tokens|
  {
    if tokens == [] then Ok([])
    else
      var n := |tokens| - 1;
      match Validate(tokens[..n], toNumber)
      case Err(m) => Err(m)
      case Ok(nums) =>
        match toNumber(tokens[n])
        case NaN => Err(InvalidNumberMessage(tokens[n], n))
        case Finite(v) => Ok(nums + [v])
  }

  /** Converts each token with `toNumber`, returning an error for the first that is NaN. */
  method ConvertAndValidateNumsArray(numsAsStrings: seq<string>, toNumber: string -> JsNumber)
    returns (r: Result<seq<real>, string>)
    ensures r == Validate(numsAsStrings, toNumber)
  {
    var result: seq<real> := [];
    for i := 0 to |numsAsStrings|
      invariant Validate(numsAsStrings[..i], toNumber) == Ok(result)
    {
      var valToNumber := toNumber(numsAsStrings[i]);
      assert numsAsStrings[..i + 1][..i] == numsAsStrings[..i];
      if valToNumber.NaN? {
        ValidateKeepsFirstError(numsAsStrings, toNumber, i + 1);
        return Err(InvalidNumberMessage(numsAsStrings[i], i));
      }
      result := result + [valToNumber.val];
    }
    assert numsAsStrings[..|numsAsStrings|] == numsAsStrings;
    r := Ok(result);
  }

  /** Once a prefix fails, the whole list fails with the same message. */
  lemma {:induction false} ValidateKeepsFirstError(tokens: seq<string>, toNumber: string -> JsNumber, k: nat)
    requires k <= |tokens| && Validate(tokens[..k], toNumber).Err?
    ensures Validate(tokens, toNumber) == Validate(tokens[..k], toNumber)
    decreases |tokens|
  {
    if k < |tokens| {
      var n := |tokens| - 1;
      assert tokens[..n][..k] == tokens[..k];
      ValidateKeepsFirstError(tokens[..n], toNumber, k);
    } else {
      assert tokens[..k] == tokens;
    }
  }

  /** Validation succeeds exactly when every token is a number, and then yields the
      number of each token, in order. */
  lemma {:induction false} ValidateSucceeds(tokens: seq<string>, toNumber: string -> JsNumber)
    ensures Validate(tokens, toNumber).Ok?
        <==> forall i :: 0 <= i < |tokens| ==> toNumber(tokens[i]).Finite?
    ensures Validate(tokens, toNumber).Ok? ==>
      && |Validate(tokens, toNumber).value| == |tokens|
      && forall i :: 0 <= i < |tokens| ==>
           Validate(tokens, toNumber).value[i] == toNumber(tokens[i]).val
  {
    if tokens != [] {
      var n := |tokens| - 1;
      ValidateSucceeds(tokens[..n], toNumber);
      assert forall i :: 0 <= i < n ==> tokens[..n][i] == tokens[i];
    }
  }

  /** Tokens that all convert are validated to exactly their numbers. */
  lemma ValidateAgrees(tokens: seq<string>, toNumber: string -> JsNumber, numbers: seq<real>)
    requires |numbers| == |tokens|
    requires forall i :: 0 <= i < |tokens| ==> toNumber(tokens[i]) == Finite(numbers[i])
    ensures Validate(tokens, toNumber) == Ok(numbers)
  {
    ValidateSucceeds(tokens, toNumber);
    assert forall i :: 0 <= i < |tokens| ==> toNumber(tokens[i]).Finite?;
    var v := Validate(tokens, toNumber).value;
    assert |v| == |numbers|;
    assert forall i :: 0 <= i < |v| ==> v[i] == numbers[i];
    assert v == numbers;
  }

  /** Token `i` is the first that is not a number. */
  predicate FirstInvalidAt(tokens: seq<string>, toNumber: string -> JsNumber, i: nat) {
    && i < |tokens|
    && toNumber(tokens[i]).NaN?
    && forall j :: 0 <= j < i ==> toNumber(tokens[j]).Finite?
  }

  /** When token `i` is the first that is not a number, validation fails with the
      message that quotes it and gives its index. */
  lemma ValidateReportsFirstInvalid(tokens: seq<string>, toNumber: string -> JsNumber, i: nat)
    requires FirstInvalidAt(tokens, toNumber, i)
    ensures Validate(tokens, toNumber) == Err(InvalidNumberMessage(tokens[i], i))
  {
    var p := tokens[..i + 1];
    ValidateSucceeds(p[..i], toNumber);
    assert p[..i] == tokens[..i];
    ValidateKeepsFirstError(tokens, toNumber, i + 1);
  }

  /** The position of the first token from `from` on that is not a number. */
  function FirstNaN(tokens: seq<string>, toNumber: string -> JsNumber, from: nat): (i: nat)
    requires from < |tokens|
    requires exists k :: from <= k < |tokens| && toNumber(tokens[k]).NaN?
    ensures from <= i < |tokens| && toNumber(tokens[i]).NaN?
    ensures forall j :: from <= j < i ==> toNumber(tokens[j]).Finite?
    decreases |tokens| - from
  {
    if toNumber(tokens[from]).NaN? then from else FirstNaN(tokens, toNumber, from + 1)
  }

  /** Every failure names the first token that is not a number. */
  lemma ValidateFailsOnlyAtFirstInvalid(tokens: seq<string>, toNumber: string -> JsNumber)
    requires Validate(tokens, toNumber).Err?
    ensures exists i: nat ::
      FirstInvalidAt(tokens, toNumber, i) && Validate(tokens, toNumber) == Err(InvalidNumberMessage(tokens[i], i))
  {
    ValidateSucceeds(tokens, toNumber);
    var i := FirstNaN(tokens, toNumber, 0);
    ValidateReportsFirstInvalid(tokens, toNumber, i);
  }

  // ---------------------------------------------------------------------------
  // findMean

  /** The sum of `nums`, added from the left as `reduce` does. */
  function Sum(nums: seq<real>): real {
    if nums == [] then 0.0 else Sum(nums[..|nums| - 1]) + nums[|nums| - 1]
  }

  /** The mean: 0 for no numbers, otherwise the value that, taken once per number,
      makes up their sum. */
  function FindMean(nums: seq<real>): (r: real)
    ensures nums == [] ==> r == 0.0
    ensures nums != [] ==> r * |nums| as real == Sum(nums)
  {
    if |nums| == 0 then 0.0 else Sum(nums) / |nums| as real
  }

  lemma {:induction false} SumConcat(a: seq<real>, b: seq<real>)
    ensures Sum(a + b) == Sum(a) + Sum(b)
    decreases |b|
  {
    if b != [] {
      var n := |b| - 1;
      SumConcat(a, b[..n]);
      assert (a + b)[..|a + b| - 1] == a + b[..n];
    } else {
      assert a + b == a;
    }
  }

  /** The sum does not depend on the order of the numbers. */
  lemma {:induction false} SumOfPermutation(a: seq<real>, b: seq<real>)
    requires multiset(a) == multiset(b)
    ensures Sum(a) == Sum(b)
    decreases |a|
  {
    if a == [] {
      assert |b| == |multiset(b)| == 0;
    } else {
      var n := |a| - 1;
      var x := a[n];
      assert a[..n] + [x] == a;
      assert multiset(a[..n]) == multiset(a) - multiset{x};
      assert x in multiset(b);
      var k :| 0 <= k < |b| && b[k] == x;
      var rest := RemoveAt(b, k);
      SumOfPermutation(a[..n], rest);
    }
  }

  /** `b` without its element at `k`. */
  function RemoveAt(b: seq<real>, k: nat): (rest: seq<real>)
    requires k < |b|
    ensures multiset(rest) == multiset(b) - multiset{b[k]}
    ensures Sum(rest) + b[k] == Sum(b)
  {
    var rest := b[..k] + b[k + 1..];
    assert b == b[..k] + [b[k]] + b[k + 1..];
    SumConcat(b[..k] + [b[k]], b[k + 1..]);
    SumConcat(b[..k], b[k + 1..]);
    SumConcat(b[..k], [b[k]]);
    rest
  }

  /** The mean does not depend on the order of the numbers. */
  lemma MeanOfPermutation(a: seq<real>, b: seq<real>)
    requires multiset(a) == multiset(b)
    ensures FindMean(a) == FindMean(b)
  {
    SumOfPermutation(a, b);
    assert |a| == |multiset(a)| == |b|;
  }

  lemma {:induction false} SumWithinBounds(nums: seq<real>, lo: real, hi: real)
    requires forall i :: 0 <= i < |nums| ==> lo <= nums[i] <= hi
    ensures |nums| as real * lo <= Sum(nums) <= |nums| as real * hi
  {
    if nums != [] {
      SumWithinBounds(nums[..|nums| - 1], lo, hi);
    }
  }

  /** The mean of non-empty input lies between any lower and upper bound of its numbers. */
  lemma MeanWithinBounds(nums: seq<real>, lo: real, hi: real)
    requires nums != []
    requires forall i :: 0 <= i < |nums| ==> lo <= nums[i] <= hi
    ensures lo <= FindMean(nums) <= hi
  {
    SumWithinBounds(nums, lo, hi);
    var n := |nums| as real;
    assert FindMean(nums) == Sum(nums) / n;
    assert (n * lo) / n == lo && (n * hi) / n == hi;
  }

  // ---------------------------------------------------------------------------
  // findMedian

  /** The middle of an ascending sequence: the middle element for odd length, the
      average of the two middle elements for even length, NaN when empty (the sum of
      two `undefined` elements). */
  function MiddleOf(sorted: seq<real>): (r: JsNumber)
    ensures r.NaN? <==> sorted == []
  {
    var middleIndex := |sorted| / 2;
    if |sorted| % 2 == 0 then
      if sorted == [] then NaN
      else Finite((sorted[middleIndex] + sorted[middleIndex - 1]) / 2.0)
    else Finite(sorted[middleIndex])
  }

  /** `findMedian` as a value: the middle of the numbers once sorted. */
  function Median(nums: seq<real>): (r: JsNumber)
    ensures r.NaN? <==> nums == []
  {
    MiddleOf(Sort(nums))
  }

  /** Sorts the caller's array in place, then reads the middle of it. */
  method FindMedian(nums: array<real>) returns (median: JsNumber)
    modifies nums
    ensures SortedAsc(nums[..])
    ensures multiset(nums[..]) == old(multiset(nums[..]))
    ensures median == Median(old(nums[..]))
  {
    SortAscending(nums);
    var middleIndex := nums.Length / 2;
    if nums.Length % 2 == 0 {
      if nums.Length == 0 {
        median := NaN;
      } else {
        median := Finite((nums[middleIndex] + nums[middleIndex - 1]) / 2.0);
      }
    } else {
      median := Finite(nums[middleIndex]);
    }
  }

  /** The median depends only on which numbers occur, not on their order. */
  lemma MedianOfPermutation(a: seq<real>, b: seq<real>)
    requires multiset(a) == multiset(b)
    ensures Median(a) == Median(b)
  {
    SortIsUnique(b, Sort(a));
  }

  /** The median is the middle of any ascending arrangement of the input. */
  lemma MedianFromSortedCopy(nums: seq<real>, sorted: seq<real>)
    requires SortedAsc(sorted) && multiset(sorted) == multiset(nums)
    ensures Median(nums) == MiddleOf(sorted)
  {
    SortIsUnique(nums, sorted);
  }

  /** Input that is already ascending keeps its order, so the median is read off it directly. */
  lemma MedianOfSorted(s: seq<real>)
    requires SortedAsc(s)
    ensures Median(s) == MiddleOf(s)
  {
    SortIsUnique(s, s);
  }

  /** For non-empty input the median is a number that no element of the lower half of
      the sorted input exceeds and that no element of the upper half falls below; for
      odd length it is itself one of the input numbers. */
  lemma MedianSplitsSortedInput(nums: seq<real>)
    requires nums != []
    ensures Median(nums).Finite?
    ensures forall i :: 0 <= i < |nums| / 2 ==> Sort(nums)[i] <= Median(nums).val
    ensures forall i :: |nums| / 2 <= i < |nums| ==> Median(nums).val <= Sort(nums)[i]
    ensures |nums| % 2 == 1 ==> Median(nums).val in nums
  {
    var t := Sort(nums);
    assert |t| == |multiset(t)| == |nums|;
    MiddleSplitsSorted(t);
    if |nums| % 2 == 1 {
      assert t[|t| / 2] in multiset(t);
    }
  }

  lemma MiddleSplitsSorted(t: seq<real>)
    requires t != [] && SortedAsc(t)
    ensures MiddleOf(t).Finite?
    ensures forall i :: 0 <= i < |t| / 2 ==> t[i] <= MiddleOf(t).val
    ensures forall i :: |t| / 2 <= i < |t| ==> MiddleOf(t).val <= t[i]
    ensures |t| % 2 == 1 ==> MiddleOf(t).val == t[|t| / 2]
  {
  }

  lemma MedianOfEmpty()
    ensures Median([]) == NaN
  {
  }
}

=== FILE: helpers_examples.dfy ===
/** The expectations of the helpers' unit tests, stated of the model. */
module HelpersExamples {
  import opened JsNumbers
  import opened JsArrays
  import opened Helpers

  /** An even number of values: the average of the two middle ones. */
  lemma MedianOfEvenCount(nums: seq<real>)
    requires |nums| == 4 && nums[0] == 1.0 && nums[1] == -1.0 && nums[2] == 4.0 && nums[3] == 2.0
    ensures Median(nums) == Finite(1.5)
  {
    var sorted := [nums[1], nums[0], nums[3], nums[2]];
    assert nums == [nums[0], nums[1], nums[2], nums[3]];
    assert multiset(sorted) == multiset(nums);
    MedianFromSortedCopy(nums, sorted);
  }

  /** An odd number of values: the middle one. */
  lemma MedianOfOddCount(nums: seq<real>)
    requires |nums| == 3 && nums[0] == 1.0 && nums[1] == -1.0 && nums[2] == 4.0
    ensures Median(nums) == Finite(1.0)
  {
    var sorted := [nums[1], nums[0], nums[2]];
    assert nums == [nums[0], nums[1], nums[2]];
    assert multiset(sorted) == multiset(nums);
    MedianFromSortedCopy(nums, sorted);
  }

  lemma MeanOfNothing()
    ensures FindMean([]) == 0.0
  {
  }

  lemma MeanOfFourValues(nums: seq<real>)
    requires nums == [1.0, -1.0, 4.0, 2.0]
    ensures FindMean(nums) == 1.5
  {
    assert nums[..3] == [1.0, -1.0, 4.0] && nums[..3][..2] == [1.0, -1.0];
    assert nums[..3][..2][..1] == [1.0] && nums[..3][..2][..1][..0] == [];
    assert Sum(nums[..3][..2][..1]) == 1.0;
    assert Sum(nums[..3][..2]) == 0.0;
    assert Sum(nums[..3]) == 4.0;
    assert Sum(nums) == 6.0;
  }

  /** The value that occurs three times wins. */
  lemma ModeOfRepeatedValues(nums: seq<real>)
    requires nums == [1.0, 1.0, 1.0, 2.0, 2.0, 3.0]
    ensures Mode(nums) == Finite(1.0)
  {
    ModeIsMostFrequent(nums);
    var m := Mode(nums).val;
    assert multiset(nums)[1.0] == 3 && multiset(nums)[2.0] == 2 && multiset(nums)[3.0] == 1;
    assert m == 1.0 || m == 2.0 || m == 3.0;
    assert multiset(nums)[m] >= 3;
  }

  /** A tie between a key that is an array index and one that is not goes to the index
      key, which `for...in` visits first, although -1 was counted first. */
  lemma ModeOfTiedCounts(nums: seq<real>)
    requires |nums| == 4 && nums[0] == -1.0 && nums[1] == 2.0 && nums[2] == -1.0 && nums[3] == 2.0
    ensures Mode(nums) == Finite(2.0)
  {
    TiedCounts(nums);
    ModeIsMostFrequent(nums);
    assert IsArrayIndex(2.0) && !IsArrayIndex(-1.0);
    ModeTiePrefersIndexKey(nums, -1.0, 2.0);
  }

  lemma TiedCounts(nums: seq<real>)
    requires |nums| == 4 && nums[0] == -1.0 && nums[1] == 2.0 && nums[2] == -1.0 && nums[3] == 2.0
    ensures -1.0 in nums && 2.0 in nums && forall x :: x in nums ==> x == -1.0 || x == 2.0
    ensures multiset(nums)[-1.0] == 2 && multiset(nums)[2.0] == 2
  {
    assert nums == [nums[0], nums[1], nums[2], nums[3]];
  }
}

=== FILE: js_arrays.dfy ===
/** The two array and object orderings the helpers depend on: `Array.prototype.sort`
    with the numeric comparator `(a, b) => a - b`, and the order in which `for...in`
    visits the keys of a plain object whose keys are numbers. */
module JsArrays {

  predicate SortedAsc(s: seq<real>) {
    forall i, j :: 0 <= i < j < |s| ==> s[i] <= s[j]
  }

  function Insert(x: real, s: seq<real>): (r: seq<real>)
    requires SortedAsc(s)
    ensures SortedAsc(r)
    ensures multiset(r) == multiset(s) + multiset{x}
  {
    if s == [] || x <= s[0] then
      SortedCons(x, s);
      [x] + s
    else
      assert s == [s[0]] + s[1..];
      var r' := Insert(x, s[1..]);
      forall y | y in multiset(r')
        ensures s[0] <= y
      {
        if y != x {
          assert y in s[1..];
          var k :| 0 <= k < |s[1..]| && s[1..][k] == y;
          assert s[k + 1] == y;
        }
      }
      LowerBoundOfAll(s[0], r');
      SortedCons(s[0], r');
      [s[0]] + r'
  }

  lemma SortedCons(h: real, t: seq<real>)
    requires SortedAsc(t)
    requires forall k :: 0 <= k < |t| ==> h <= t[k]
    ensures SortedAsc([h] + t)
  {
    var r := [h] + t;
    forall i, j | 0 <= i < j < |r|
      ensures r[i] <= r[j]
    {
      if i == 0 {
        assert r[j] == t[j - 1];
      } else {
        assert r[i] == t[i - 1] && r[j] == t[j - 1];
      }
    }
  }

  lemma LowerBoundOfAll(b: real, r: seq<real>)
    requires forall y :: y in multiset(r) ==> b <= y
    ensures forall k :: 0 <= k < |r| ==> b <= r[k]
  {
    forall k | 0 <= k < |r|
      ensures b <= r[k]
    {
      assert r[k] in multiset(r);
    }
  }

  /** The ascending rearrangement of `s`: the reference result of sorting. */
  function Sort(s: seq<real>): (t: seq<real>)
    ensures |t| == |s|
    ensures SortedAsc(t)
    ensures multiset(t) == multiset(s)
  {
    if s == [] then []
    else
      assert s == [s[0]] + s[1..];
      var t := Insert(s[0], Sort(s[1..]));
      assert |t| == |multiset(t)| == |multiset(s)|;
      t
  }

  /** The least element of a non-empty sorted sequence comes first. */
  lemma SortedHeadIsLeast(s: seq<real>, x: real)
    requires SortedAsc(s) && x in multiset(s)
    ensures s[0] <= x
  {
    var k :| 0 <= k < |s| && s[k] == x;
  }

  /** Two sorted sequences with the same elements start with the same element. */
  lemma SortedSameHead(a: seq<real>, b: seq<real>)
    requires SortedAsc(a) && SortedAsc(b)
    requires multiset(a) == multiset(b) && a != []
    ensures b != [] && a[0] == b[0]
  {
    assert a[0] in multiset(a);
    assert |b| == |multiset(b)| > 0;
    assert b[0] in multiset(b);
    SortedHeadIsLeast(a, b[0]);
    SortedHeadIsLeast(b, a[0]);
  }

  /** A sorted sequence is determined by its elements. */
  lemma {:induction false} SortedUnique(a: seq<real>, b: seq<real>)
    requires SortedAsc(a) && SortedAsc(b)
    requires multiset(a) == multiset(b)
    ensures a == b
  {
    if a == [] {
      assert |b| == |multiset(b)| == 0;
    } else {
      SortedSameHead(a, b);
      assert a == [a[0]] + a[1..] && b == [b[0]] + b[1..];
      assert multiset(a) == multiset{a[0]} + multiset(a[1..]);
      assert multiset(b) == multiset{a[0]} + multiset(b[1..]);
      assert multiset(a[1..]) == multiset(a) - multiset{a[0]};
      assert multiset(b[1..]) == multiset(b) - multiset{a[0]};
      SortedUnique(a[1..], b[1..]);
    }
  }

  /** Any sorted rearrangement of `s` is `Sort(s)`. */
  lemma SortIsUnique(s: seq<real>, t: seq<real>)
    requires SortedAsc(t) && multiset(t) == multiset(s)
    ensures t == Sort(s)
  {
    SortedUnique(t, Sort(s));
  }

  /** `a.sort((x, y) => x - y)`: sorts the caller's array in place, ascending. */
  method SortAscending(a: array<real>)
    modifies a
    ensures SortedAsc(a[..])
    ensures multiset(a[..]) == old(multiset(a[..]))
    ensures a[..] == Sort(old(a[..]))
  {
    var i := 0;
    while i < a.Length
      invariant 0 <= i <= a.Length
      invariant SortedAsc(a[..i])
      invariant multiset(a[..]) == old(multiset(a[..]))
    {
      SinkIntoPlace(a, i);
      i := i + 1;
    }
    assert a[..a.Length] == a[..];
    SortIsUnique(old(a[..]), a[..]);
  }

  /** Moves `a[i]` down past every larger element of the sorted prefix `a[..i]`. */
  method SinkIntoPlace(a: array<real>, i: int)
    requires 0 <= i < a.Length && SortedAsc(a[..i])
    modifies a
    ensures SortedAsc(a[..i + 1])
    ensures forall k :: i < k < a.Length ==> a[k] == old(a[k])
    ensures multiset(a[..]) == old(multiset(a[..]))
  {
    var j := i;
    while j > 0 && a[j - 1] > a[j]
      invariant 0 <= j <= i
      invariant forall k :: i < k < a.Length ==> a[k] == old(a[k])
      invariant forall p, q :: 0 <= p < q <= i && p != j && q != j ==> a[p] <= a[q]
      invariant forall q :: j < q <= i ==> a[j] <= a[q]
      invariant multiset(a[..]) == old(multiset(a[..]))
    {
      a[j - 1], a[j] := a[j], a[j - 1];
      j := j - 1;
    }
  }

  /** An array index key: the string form of an integer from 0 to 2^32 - 2. */
  predicate IsArrayIndex(x: real) {
    x.Floor as real == x && 0.0 <= x < 4294967295.0
  }

  /** The keys that are array indexes, in their original order. */
  function IndexKeys(keys: seq<real>): (r: seq<real>)
    ensures forall x :: x in r <==> x in keys && IsArrayIndex(x)
  {
    if keys == [] then []
    else if IsArrayIndex(keys[0]) then [keys[0]] + IndexKeys(keys[1..])
    else IndexKeys(keys[1..])
  }

  /** The other keys, in their original order. */
  function NamedKeys(keys: seq<real>): (r: seq<real>)
    ensures forall x :: x in r <==> x in keys && !IsArrayIndex(x)
    ensures forall i :: 0 <= i < |r| ==> !IsArrayIndex(r[i])
  {
    if keys == [] then []
    else if !IsArrayIndex(keys[0]) then [keys[0]] + NamedKeys(keys[1..])
    else NamedKeys(keys[1..])
  }

  /** `x` occurs in `keys` at some position before an occurrence of `y`. */
  predicate Precedes(x: real, y: real, keys: seq<real>) {
    exists p, q :: 0 <= p < q < |keys| && keys[p] == x && keys[q] == y
  }

  /** A key that precedes another in a suffix of `keys` precedes it in `keys`. */
  lemma PrecedesInTail(x: real, y: real, keys: seq<real>)
    requires keys != [] && Precedes(x, y, keys[1..])
    ensures Precedes(x, y, keys)
  {
    var p, q :| 0 <= p < q < |keys[1..]| && keys[1..][p] == x && keys[1..][q] == y;
    assert keys[p + 1] == x && keys[q + 1] == y;
  }

  /** The other keys keep their relative order: of any two of them, the earlier one
      occurs in `keys` before the later one. */
  lemma {:induction false} NamedKeysKeepOrder(keys: seq<real>)
    ensures forall i, j :: 0 <= i < j < |NamedKeys(keys)| ==>
      Precedes(NamedKeys(keys)[i], NamedKeys(keys)[j], keys)
  {
    if keys != [] {
      var tail := keys[1..];
      NamedKeysKeepOrder(tail);
      var r, rt := NamedKeys(keys), NamedKeys(tail);
      forall i, j | 0 <= i < j < |r|
        ensures Precedes(r[i], r[j], keys)
      {
        if !IsArrayIndex(keys[0]) {
          assert r == [keys[0]] + rt;
          if i == 0 {
            assert r[j] == rt[j - 1] && r[j] in tail;
            var q :| 0 <= q < |tail| && tail[q] == r[j];
            assert keys[0] == r[i] && keys[q + 1] == r[j];
          } else {
            assert 0 <= i - 1 < j - 1 < |rt|;
            assert Precedes(rt[i - 1], rt[j - 1], tail);
            assert r[i] == rt[i - 1] && r[j] == rt[j - 1];
            PrecedesInTail(r[i], r[j], keys);
          }
        } else {
          assert r == rt;
          assert 0 <= i < j < |rt|;
          assert Precedes(rt[i], rt[j], tail);
          PrecedesInTail(r[i], r[j], keys);
        }
      }
    }
  }

  /** The order in which `for...in` visits an object whose keys were inserted in the
      order `keys`: array index keys ascending, then the rest in insertion order. */
  function ForInOrder(keys: seq<real>): (order: seq<real>)
    ensures |order| == |keys|
    ensures forall x :: x in order <==> x in keys
    ensures forall i, j :: 0 <= i < j < |order| && IsArrayIndex(order[j]) ==> IsArrayIndex(order[i])
    ensures forall i, j :: 0 <= i < j < |order| && IsArrayIndex(order[j]) ==> order[i] <= order[j]
    ensures forall i, j :: 0 <= i < j < |order| && !IsArrayIndex(order[i]) ==>
      Precedes(order[i], order[j], keys)
  {
    var sorted := Sort(IndexKeys(keys));
    var named := NamedKeys(keys);
    SortedIndexKeys(keys, sorted);
    KeysSplitInTwo(keys);
    NamedKeysKeepOrder(keys);
    IndexKeysFirst(sorted, named);
    NamedKeysLast(keys, sorted, named);
    sorted + named
  }

  /** In such an order, a key that is not an array index never comes at or before an index key. */
  lemma NoOtherKeyBefore(order: seq<real>, x: real, j: nat)
    requires forall i, j :: 0 <= i < j < |order| && IsArrayIndex(order[j]) ==> IsArrayIndex(order[i])
    requires j < |order| && IsArrayIndex(order[j]) && !IsArrayIndex(x)
    ensures x !in order[..j + 1]
  {
  }

  /** Every key goes to exactly one of the two parts. */
  lemma {:induction false} KeysSplitInTwo(keys: seq<real>)
    ensures |IndexKeys(keys)| + |NamedKeys(keys)| == |keys|
  {
    if keys != [] {
      KeysSplitInTwo(keys[1..]);
    }
  }

  /** The sorted index keys are exactly the index keys of `keys`. */
  lemma SortedIndexKeys(keys: seq<real>, sorted: seq<real>)
    requires sorted == Sort(IndexKeys(keys))
    ensures forall x :: x in sorted <==> x in keys && IsArrayIndex(x)
    ensures forall i :: 0 <= i < |sorted| ==> IsArrayIndex(sorted[i])
  {
    assert forall x :: x in sorted <==> x in multiset(IndexKeys(keys));
    forall i | 0 <= i < |sorted| ensures IsArrayIndex(sorted[i]) {
      assert sorted[i] in sorted;
    }
  }

  /** Ascending index keys followed by other keys: every index key comes first, in order. */
  lemma IndexKeysFirst(sorted: seq<real>, named: seq<real>)
    requires SortedAsc(sorted) && forall i :: 0 <= i < |sorted| ==> IsArrayIndex(sorted[i])
    requires forall i :: 0 <= i < |named| ==> !IsArrayIndex(named[i])
    ensures var order := sorted + named;
      forall i, j :: 0 <= i < j < |order| && IsArrayIndex(order[j]) ==>
        IsArrayIndex(order[i]) && order[i] <= order[j]
  {
    var order := sorted + named;
    forall i, j | 0 <= i < j < |order| && IsArrayIndex(order[j])
      ensures IsArrayIndex(order[i]) && order[i] <= order[j]
    {
      assert order[i] == sorted[i] && order[j] == sorted[j];
    }
  }

  /** Other keys, all after the index keys, keep the relative order they have in `named`. */
  lemma NamedKeysLast(keys: seq<real>, sorted: seq<real>, named: seq<real>)
    requires forall i :: 0 <= i < |sorted| ==> IsArrayIndex(sorted[i])
    requires forall i, j :: 0 <= i < j < |named| ==> Precedes(named[i], named[j], keys)
    ensures var order := sorted + named;
      forall i, j :: 0 <= i < j < |order| && !IsArrayIndex(order[i]) ==>
        Precedes(order[i], order[j], keys)
  {
    var order := sorted + named;
    forall i, j | 0 <= i < j < |order| && !IsArrayIndex(order[i])
      ensures Precedes(order[i], order[j], keys)
    {
      assert order[i] == named[i - |sorted|] && order[j] == named[j - |sorted|];
    }
  }

  /** Keys that are all array indexes leave no other keys. */
  lemma {:induction false} NoNamedKeys(keys: seq<real>)
    requires forall i :: 0 <= i < |keys| ==> IsArrayIndex(keys[i])
    ensures NamedKeys(keys) == []
  {
    if keys != [] {
      assert IsArrayIndex(keys[0]);
      assert forall i :: 0 <= i < |keys[1..]| ==> keys[1..][i] == keys[i + 1];
      NoNamedKeys(keys[1..]);
    }
  }

  /** Keys that are all array indexes are visited in ascending order. */
  lemma ForInOrderOfIndexKeys(keys: seq<real>)
    requires forall i :: 0 <= i < |keys| ==> IsArrayIndex(keys[i])
    ensures SortedAsc(ForInOrder(keys))
  {
    NoNamedKeys(keys);
    var sorted := Sort(IndexKeys(keys));
    assert ForInOrder(keys) == sorted + [];
    assert sorted + [] == sorted;
  }
}

=== FILE: js_numbers.dfy ===
/** JavaScript number values and the two conversions between numbers and strings
    that the helpers rely on: `Number(string)` (ECMAScript StringToNumber) and the
    rendering of a non-negative integer inside a template literal. */
module JsNumbers {
  import opened Wrappers

  /** A JavaScript number as this model holds it: an exact finite value, or NaN. */
  datatype JsNumber = Finite(val: real) | NaN

  /** StrWhiteSpaceChar of the StringToNumber grammar: WhiteSpace (tab, vertical tab,
      form feed, zero-width no-break space and every space separator) and LineTerminator. */
  predicate IsStrWhiteSpace(c: char) {
    || c == '\t' || c == '\U{000B}' || c == '\U{000C}' || c == '\U{FEFF}'
    || c == ' ' || c == '\U{00A0}' || c == '\U{1680}' || ('\U{2000}' <= c <= '\U{200A}')
    || c == '\U{202F}' || c == '\U{205F}' || c == '\U{3000}'
    || c == '\n' || c == '\r' || c == '\U{2028}' || c == '\U{2029}'
  }

  function TrimStart(s: string): (t: string)
    ensures t == [] || !IsStrWhiteSpace(t[0])
    ensures |t| <= |s| && t == s[|s| - |t|..]
    ensures forall i :: 0 <= i < |s| - |t| ==> IsStrWhiteSpace(s[i])
  {
    if s != [] && IsStrWhiteSpace(s[0]) then TrimStart(s[1..]) else s
  }

  function TrimEnd(s: string): (t: string)
    ensures t == [] || !IsStrWhiteSpace(t[|t| - 1])
    ensures |t| <= |s| && t == s[..|t|]
    ensures forall i :: |t| <= i < |s| ==> IsStrWhiteSpace(s[i])
  {
    if s != [] && IsStrWhiteSpace(s[|s| - 1]) then TrimEnd(s[..|s| - 1]) else s
  }

  /** The value of a digit character in bases up to 16; 16 for any other character. */
  function DigitValue(c: char): (d: nat)
    ensures d <= 16
  {
    if '0' <= c <= '9' then c as int - '0' as int
    else if 'a' <= c <= 'f' then c as int - 'a' as int + 10
    else if 'A' <= c <= 'F' then c as int - 'A' as int + 10
    else 16
  }

  predicate AllDigits(s: string, base: nat) {
    forall i :: 0 <= i < |s| ==> DigitValue(s[i]) < base
  }

  /** The value of a digit string read most significant digit first. */
  function DigitsValue(s: string, base: nat): nat {
    if s == [] then 0 else DigitsValue(s[..|s| - 1], base) * base + DigitValue(s[|s| - 1])
  }

  function Pow10(n: nat): (p: real)
    ensures p >= 1.0
  {
    if n == 0 then 1.0 else 10.0 * Pow10(n - 1)
  }

  /** The index of the first character of `s` that is in `cs`, or |s| if there is none. */
  function IndexOfAny(s: string, cs: set<char>): (k: nat)
    ensures k <= |s|
    ensures k < |s| ==> s[k] in cs
    ensures forall i :: 0 <= i < k ==> s[i] !in cs
  {
    if s == [] then 0 else if s[0] in cs then 0 else 1 + IndexOfAny(s[1..], cs)
  }

  /** NonDecimalIntegerLiteral digits after a `0x`, `0o` or `0b` prefix. */
  function ParseInteger(digits: string, base: nat): JsNumber {
    if digits != [] && AllDigits(digits, base) then Finite(DigitsValue(digits, base) as real) else NaN
  }

  /** ExponentPart after its `e` or `E`: an optional sign and at least one decimal digit. */
  function ParseExponent(s: string): Option<int> {
    var digits := if s != [] && (s[0] == '+' || s[0] == '-') then s[1..] else s;
    if digits == [] || !AllDigits(digits, 10) then None
    else if s[0] == '-' then Some(-(DigitsValue(digits, 10) as int))
    else Some(DigitsValue(digits, 10) as int)
  }

  /** StrUnsignedDecimalLiteral without `Infinity`: `1`, `1.`, `1.5`, `.5`, each with an
      optional exponent. */
  function ParseUnsignedDecimal(s: string): JsNumber {
    var e := IndexOfAny(s, {'e', 'E'});
    var mantissa := s[..e];
    var dot := IndexOfAny(mantissa, {'.'});
    var whole := mantissa[..dot];
    var fraction := if dot < |mantissa| then mantissa[dot + 1..] else "";
    if !AllDigits(whole, 10) || !AllDigits(fraction, 10) || whole + fraction == [] then NaN
    else
      var m := DigitsValue(whole, 10) as real + DigitsValue(fraction, 10) as real / Pow10(|fraction|);
      if e == |s| then Finite(m)
      else match ParseExponent(s[e + 1..])
        case None => NaN
        case Some(x) => Finite(if x >= 0 then m * Pow10(x) else m / Pow10(-x))
  }

  function Negate(n: JsNumber): JsNumber {
    match n
    case Finite(v) => Finite(-v)
    case NaN => NaN
  }

  predicate HasPrefix(t: string, lower: char, upper: char) {
    |t| >= 2 && t[0] == '0' && (t[1] == lower || t[1] == upper)
  }

  /** `Number(s)` for a string: surrounding white space is ignored, an empty or
      all-white-space string is 0, hexadecimal, octal and binary integers carry no sign. */
  function ParseNumber(s: string): JsNumber {
    var t := TrimEnd(TrimStart(s));
    if t == [] then Finite(0.0)
    else if HasPrefix(t, 'x', 'X') then ParseInteger(t[2..], 16)
    else if HasPrefix(t, 'o', 'O') then ParseInteger(t[2..], 8)
    else if HasPrefix(t, 'b', 'B') then ParseInteger(t[2..], 2)
    else if t[0] == '-' then Negate(ParseUnsignedDecimal(t[1..]))
    else if t[0] == '+' then ParseUnsignedDecimal(t[1..])
    else ParseUnsignedDecimal(t)
  }

  function DigitChar(d: nat): (c: char)
    requires d < 10
    ensures DigitValue(c) == d
  {
    ('0' as int + d) as char
  }

  /** The decimal rendering of a non-negative integer, as `${i}` produces it. */
  function NatToString(n: nat): (s: string)
    ensures s != []
  {
    if n < 10 then [DigitChar(n)] else NatToString(n / 10) + [DigitChar(n % 10)]
  }

  lemma {:induction false} NatToStringDigits(n: nat)
    ensures AllDigits(NatToString(n), 10)
    ensures DigitsValue(NatToString(n), 10) == n
    ensures NatToString(n)[0] == '0' ==> NatToString(n) == "0"
  {
    var s := NatToString(n);
    if n >= 10 {
      NatToStringDigits(n / 10);
      assert s[..|s| - 1] == NatToString(n / 10);
      assert s[0] == NatToString(n / 10)[0];
    } else {
      assert s[..|s| - 1] == [];
    }
  }

  lemma DecimalDigitChar(c: char)
    requires DigitValue(c) < 10
    ensures '0' <= c <= '9' && !IsStrWhiteSpace(c)
  {
  }

  /** A digit string holds none of the characters of `cs` when no digit is in `cs`. */
  lemma IndexOfAnyInDigits(s: string, cs: set<char>)
    requires AllDigits(s, 10)
    requires forall c :: c in cs ==> DigitValue(c) >= 10
    ensures IndexOfAny(s, cs) == |s|
  {
  }

  lemma ParseUnsignedDigits(s: string)
    requires s != [] && AllDigits(s, 10)
    ensures ParseUnsignedDecimal(s) == Finite(DigitsValue(s, 10) as real)
  {
    IndexOfAnyInDigits(s, {'e', 'E'});
    assert s[..|s|] == s;
    IndexOfAnyInDigits(s, {'.'});
  }

  /** A string of decimal digits is read back as its own value. */
  lemma ParseDecimalDigits(s: string)
    requires s != [] && AllDigits(s, 10)
    ensures ParseNumber(s) == Finite(DigitsValue(s, 10) as real)
  {
    DecimalDigitChar(s[0]);
    DecimalDigitChar(s[|s| - 1]);
    assert TrimStart(s) == s;
    assert TrimEnd(s) == s;
    if |s| >= 2 {
      DecimalDigitChar(s[1]);
    }
    assert !HasPrefix(s, 'x', 'X') && !HasPrefix(s, 'o', 'O') && !HasPrefix(s, 'b', 'B');
    ParseUnsignedDigits(s);
  }

  /** Rendering an index and parsing it with `Number` gives the index back. */
  lemma ParseNatToString(n: nat)
    ensures ParseNumber(NatToString(n)) == Finite(n as real)
  {
    NatToStringDigits(n);
    ParseDecimalDigits(NatToString(n));
  }

  /** An empty or all-white-space token is the number 0, not NaN. */
  lemma ParseBlank(s: string)
    requires forall i :: 0 <= i < |s| ==> IsStrWhiteSpace(s[i])
    ensures ParseNumber(s) == Finite(0.0)
  {
  }
}

=== FILE: js_strings.dfy ===
/** `String.prototype.split` with a one-character separator, and its inverse
    `Array.prototype.join`. */
module JsStrings {

  /** `s.split(sep)`: cuts at every occurrence of `sep`, keeping empty pieces and
      trimming nothing; the empty string splits into one empty piece. */
  function Split(s: string, sep: char): (parts: seq<string>)
    ensures |parts| >= 1
  {
    if s == [] then [""]
    else
      var rest := Split(s[1..], sep);
      if s[0] == sep then [""] + rest else [[s[0]] + rest[0]] + rest[1..]
  }

  /** `parts.join(sep)`. */
  function Join(parts: seq<string>, sep: char): string {
    if parts == [] then ""
    else if |parts| == 1 then parts[0]
    else parts[0] + [sep] + Join(parts[1..], sep)
  }

  /** Splitting gives one more piece than there are separators in the string. */
  lemma {:induction false} SplitCount(s: string, sep: char)
    ensures |Split(s, sep)| == multiset(s)[sep] + 1
  {
    if s != [] {
      SplitCount(s[1..], sep);
      assert s == [s[0]] + s[1..];
    }
  }

  /** No piece contains the separator. */
  lemma {:induction false} SplitPiecesFree(s: string, sep: char)
    ensures forall i :: 0 <= i < |Split(s, sep)| ==> sep !in Split(s, sep)[i]
  {
    if s != [] {
      SplitPiecesFree(s[1..], sep);
    }
  }

  /** Joining the pieces with the separator gives the original string back, so the
      split neither drops nor trims any character. */
  lemma {:induction false} JoinSplit(s: string, sep: char)
    ensures Join(Split(s, sep), sep) == s
  {
    if s != [] {
      var rest := Split(s[1..], sep);
      JoinSplit(s[1..], sep);
      if s[0] == sep {
        assert Split(s, sep)[1..] == rest;
      } else {
        var parts := Split(s, sep);
        if |rest| == 1 {
          assert parts == [[s[0]] + rest[0]];
        } else {
          assert parts[1..] == rest[1..];
          assert Join(rest, sep) == rest[0] + [sep] + Join(rest[1..], sep);
        }
      }
    }
  }

  /** Splitting a string that starts with a separator-free piece. */
  lemma {:induction false} SplitAfterPiece(p: string, rest: string, sep: char)
    requires sep !in p
    ensures Split(p + rest, sep) == [p + Split(rest, sep)[0]] + Split(rest, sep)[1..]
  {
    if p != [] {
      var q, tail := p + rest, Split(rest, sep);
      SplitAfterPiece(p[1..], rest, sep);
      assert q[0] == p[0] != sep && q[1..] == p[1..] + rest;
      var r := Split(q[1..], sep);
      assert r[0] == p[1..] + tail[0] && r[1..] == tail[1..];
      assert [p[0]] + r[0] == p + tail[0];
    } else {
      var parts := Split(rest, sep);
      assert p + rest == rest && p + parts[0] == parts[0];
      assert parts == [parts[0]] + parts[1..];
    }
  }

  /** Splitting undoes joining pieces that do not contain the separator. */
  lemma {:induction false} SplitJoin(parts: seq<string>, sep: char)
    requires |parts| >= 1
    requires forall i :: 0 <= i < |parts| ==> sep !in parts[i]
    ensures Split(Join(parts, sep), sep) == parts
  {
    if |parts| == 1 {
      SplitAfterPiece(parts[0], "", sep);
      assert parts[0] + "" == parts[0];
    } else {
      var tail := Join(parts[1..], sep);
      SplitJoin(parts[1..], sep);
      assert parts[0] + [sep] + tail == parts[0] + ([sep] + tail);
      SplitAfterPiece(parts[0], [sep] + tail, sep);
      assert ([sep] + tail)[0] == sep && ([sep] + tail)[1..] == tail;
      assert Split([sep] + tail, sep) == [""] + parts[1..];
      assert parts[0] + "" == parts[0];
      assert parts == [parts[0]] + parts[1..];
    }
  }
}

=== FILE: wrappers.dfy ===
/** Optional values and success-or-error results, used in place of JavaScript's
    `undefined` and of thrown or returned `Error` objects. */
module Wrappers {

  datatype Option<+T> = None | Some(value: T)

  datatype Result<+T, +E> = Ok(value: T) | Err(error: E)
}
